=== FILE: README.md ===
# Notes app core: auto-save, draft and credential rules, search, sign-in callback

This project is a Dafny model of the logic in a personal notes web app. The
rest of the app is page markup and calls into a hosted identity and database
service. Every statement about the model is proved by the Dafny verifier.
The model covers six parts:

- **The debounced auto-save hook** (`autosave.dfy`). It keeps a baseline of the
  last data it knows to be saved, at most one pending timer, the flags
  `isSaving`, `hasUnsavedChanges` and `lastSaved`, and a `saveNow` escape
  hatch. The class `AutoSaveHook` changes these fields one event at a time.
  Pure transition functions (`Changed`, `Fired`, `SavedNow`, `Unmounted`) and
  an event-trace semantics (`Run`, `Calls`) state what each event does. The
  lemmas over them give the invariant, the debounce property and the no-retry
  behaviour.
- **Note drafts** (`notes.dfy`). The `isValid` rule and the first-error
  message precedence are shared by both note forms. The file also holds the
  `Note` record and the limits 3, 200 and 10.
- **The edit form** (`edit_form.dfy`). Its auto-save gate (`handleAutoSave`) is
  the hook's `onSave`. Its submit handler forces a save through `saveNow`. The
  file also states, as a lemma, how the gate and the hook combine.
- **The new-note form** (`new_form.dfy`). Its submit handler covers the user
  check and the insert payload.
- **The credential validators** (`validation.dfy`). The e-mail pattern is given
  both as an executable matcher and as an existential split
  `local@domain.top`, and the two are proved equal. The file also has the
  ordered password checks and the six-criterion strength meter.
- **The search filter** (`notes_list.dfy`) and **the sign-in callback route**
  (`auth_callback.dfy`). The route's branching decides which call to the
  identity service is tried and where the user is redirected.

`text.dfy` models `trim`, ASCII lower-casing and substring search, and
`wrappers.dfy` holds `Option`.

Three behaviours of the code are easy to miss:
- A scheduled save of a draft that fails `handleAutoSave`'s gate is still
  recorded as saved. The gate returns normally, so the hook clears the dirty
  flag and moves the baseline, yet nothing reached the store
  (`EditForm.RejectedDraftRecordedAsSaved`).
- A change back to the baseline clears the pending timer, through the cleanup
  of the previous effect run, and leaves `hasUnsavedChanges` as it was, which
  may be true (`AutoSave.ChangeToBaseline`).
- A change to the same value as the current data does not re-run the effect at
  all, so it does not even clear the timer (`AutoSave.Changed`).

## Model

| member | source | states |
|---|---|---|
| `AutoSave.InitialInv` | hooks/useAutoSave.ts:10-14 | the first state has nothing saving, nothing unsaved, no save time, the initial data as baseline and no timer, and satisfies the invariant |
| `AutoSave.StepInv` | hooks/useAutoSave.ts:23-76 | every event preserves the invariant: nothing saving between events, a pending timer carries the current data, and that data differs from the baseline with the dirty flag set, and a clean hook has data equal to its baseline; each timer or `saveNow` event makes at most one `onSave` call, other events none |
| `AutoSave.RunInv` | hooks/useAutoSave.ts:23-76 | over any sequence of events the invariant holds, and the number of `onSave` calls is at most the number of timer and `saveNow` events |
| `AutoSave.BurstOfChanges` | hooks/useAutoSave.ts:23-35 | a burst of changes that starts with a real edit makes no `onSave` call, ends with the last value as current data, keeps baseline and save time, and leaves a timer pending exactly when the last value differs from the baseline |
| `AutoSave.BurstNoOp` | hooks/useAutoSave.ts:23-27 | in a state whose timer is pending exactly when the data differs from the baseline, a burst whose first value equals the current data (that change re-runs nothing) makes no call, ends with the last value as current data, keeps baseline and save time, and leaves a timer exactly when the last value differs from the baseline |
| `AutoSave.Debounce` | hooks/useAutoSave.ts:31-38 | changes followed by the timer make exactly one `onSave` call, carrying the last data |
| `AutoSave.ChangeToBaseline` | hooks/useAutoSave.ts:23-56 | a change back to the baseline leaves no timer pending and the dirty flag as it was |
| `AutoSave.FailedSaveNotRetried` | hooks/useAutoSave.ts:42-48 | a failed timer save changes nothing but clearing the timer, and a later timer event makes no call |
| `AutoSave.SaveNowCancelsTimer` | hooks/useAutoSave.ts:58-61 | after `saveNow` no timer is pending, so `saveNow` then a timer event make the single call with the current data |
| `AutoSave.SaveNowLikeTimer` | hooks/useAutoSave.ts:62-67 | a successful `saveNow` leaves the same state as a successful timer save |
| `AutoSave.AutoSaveHook.constructor` | hooks/useAutoSave.ts:10-14 | initial flags false and null, baseline the initial data, no timer |
| `AutoSave.AutoSaveHook.OnDataChanged` | hooks/useAutoSave.ts:23-56 | new data that differs from the baseline sets the dirty flag and leaves exactly one timer, for that data; data equal to the baseline leaves no timer and the dirty flag unchanged; baseline and save time are untouched |
| `AutoSave.AutoSaveHook.OnTimerFires` | hooks/useAutoSave.ts:35-49 | the pending data is handed to `onSave`; on success the save time is `now`, the dirty flag clears and the baseline becomes that data; on failure baseline, flag and time are unchanged; `isSaving` ends false and no timer remains |
| `AutoSave.AutoSaveHook.SaveNow` | hooks/useAutoSave.ts:58-76 | the timer is cleared; success updates state as a timer save does; failure is returned as the rethrown error with baseline, flag and time unchanged; `isSaving` ends false |
| `AutoSave.AutoSaveHook.Unmount` | hooks/useAutoSave.ts:51-55 | the cleanup leaves no timer pending |
| `Notes.IsValidBounds` | components/notes/EditNoteForm.tsx:25-35 | a draft is valid exactly when the trimmed title has 3 to 200 characters and the trimmed content at least 10 |
| `Notes.DraftError` | components/notes/NewNoteForm.tsx:37-47 | no message exactly for a valid draft; otherwise one message, by precedence title required, title too short, content required, content too short |
| `Notes.LongTitleReportedAsShortContent` | components/notes/EditNoteForm.tsx:81-91 | when the only defect is a title over 200 characters, the message shown is the content-too-short one |
| `EditForm.HandleAutoSave` | components/notes/EditNoteForm.tsx:37-66 | the store is called exactly when the gate passes, with the trimmed title and content for this note's id; the call fails exactly when the gate passes and the store reports an error, which is thrown |
| `EditForm.GateVersusIsValid` | components/notes/EditNoteForm.tsx:25-51 | every valid draft passes the gate; the gate also admits exactly the drafts whose only defect is a title over 200 characters |
| `EditForm.RejectedDraftRecordedAsSaved` | components/notes/EditNoteForm.tsx:42-51 | a pending draft that fails the gate reaches no store call, yet the hook records it as saved: dirty flag cleared, baseline the draft, save time `now` |
| `EditForm.SubmitCall` | components/notes/EditNoteForm.tsx:94-97 | on submit the draft is valid, so the save reaches the store with the trimmed fields, and it fails exactly when the store errs |
| `EditForm.EditNoteForm.constructor` | components/notes/EditNoteForm.tsx:17-21 | the fields start at the note's stored values, the hook's baseline is that draft, not loading, no error |
| `EditForm.EditNoteForm.SetTitle` | components/notes/EditNoteForm.tsx:176 | typing a title hands the new draft to the hook's change event |
| `EditForm.EditNoteForm.SetContent` | components/notes/EditNoteForm.tsx:196 | typing content hands the new draft to the hook's change event |
| `EditForm.EditNoteForm.AutoSaveTimerFires` | components/notes/EditNoteForm.tsx:68-72 | the hook's timer runs `handleAutoSave` on the captured draft and settles with its outcome |
| `EditForm.EditNoteForm.Submit` | components/notes/EditNoteForm.tsx:74-108 | an invalid draft gets its single message, no save and an unchanged hook; a valid one is saved through `saveNow`, whose rethrown error becomes the message; `loading` ends false after a save attempt |
| `NewForm.NewNoteForm.constructor` | components/notes/NewNoteForm.tsx:11-14 | empty fields, not loading, no error |
| `NewForm.NewNoteForm.SetTitle` | components/notes/NewNoteForm.tsx:92 | typing a title replaces the title and nothing else |
| `NewForm.NewNoteForm.SetContent` | components/notes/NewNoteForm.tsx:112 | typing content replaces the content and nothing else |
| `NewForm.NewNoteForm.Submit` | components/notes/NewNoteForm.tsx:30-79 | an invalid draft gets its message with no user lookup and no insert; with no user, no insert and the not-logged-in message; otherwise the trimmed fields are inserted with the user's id and an insert error becomes the message; `loading` ends false after an attempt |
| `NotesList.KeepMatching` | components/notes/NotesList.tsx:24-28 | the result keeps order, is no longer than the input, and holds every matching note as many times as the input does and no other note |
| `NotesList.FilterNotes` | components/notes/NotesList.tsx:18-29 | a blank query returns the list unchanged; otherwise every note whose lower-cased title or content contains the lower-cased query is kept as many times as it occurs, and no other note; always an ordered sub-sequence |
| `NotesList.FilterIdempotent` | components/notes/NotesList.tsx:24-28 | filtering the filtered list again with the same query changes nothing |
| `NotesList.UntrimmedQuery` | components/notes/NotesList.tsx:19-23 | the untrimmed query is matched: the query " cat" drops a note titled "cat" although the trimmed query occurs in it |
| `Text.Trim` | components/notes/EditNoteForm.tsx:26-27 | `trim` never lengthens a string, leaves no white space at either end, and is empty exactly when the string is all white space |
| `Text.TrimSlice` | components/notes/NewNoteForm.tsx:34-35 | what `trim` keeps is a contiguous slice of the input with only white space before and after it |
| `Text.Lower` | components/notes/NotesList.tsx:23 | lower-casing keeps the length, leaves no ASCII capital letter and keeps every other character; with `Text.LowerIgnoresCase`, each capital becomes its own lower-case letter |
| `Text.LowerIgnoresCase` | components/notes/NotesList.tsx:23-27 | two strings lower-case to the same string exactly when they have the same length and at each position the same character or the same letter of the alphabet in either case, so the search ignores letter case |
| `Text.LowerIdempotent` | components/notes/NotesList.tsx:23 | lower-casing an already lower-cased string changes nothing |
| `Validation.MatchesEmailIffPattern` | lib/validation.ts:8 | the executable matcher accepts exactly the strings `local@domain.top` with non-empty local and domain parts and a top part of at least two characters, none with white space or `@` |
| `Validation.ValidateEmail` | lib/validation.ts:10-20 | "Email is required" exactly for blank input; valid exactly when the untrimmed input matches the pattern; otherwise the malformed message |
| `Validation.ValidEmailShape` | lib/validation.ts:8 | a valid address has no white space and exactly one `@` |
| `Validation.SurroundingWhitespaceRejected` | lib/validation.ts:15 | a non-blank address with leading or trailing white space is rejected as malformed |
| `Validation.ValidatePassword` | lib/validation.ts:22-47 | valid exactly when at least 6 characters with an upper-case letter, a lower-case letter and a digit; otherwise the first failing check in the order required, length, upper, lower, digit |
| `Validation.Score` | lib/validation.ts:57-64 | the score counts six criteria, so it is at most 6 |
| `Validation.PasswordStrength` | lib/validation.ts:49-73 | an empty password is weak with no message; otherwise weak exactly for a score of at most 2, strong exactly for 5 or more, medium in between, with the matching message |
| `Validation.AcceptedPasswordNotWeak` | lib/validation.ts:27-63 | a password the validator accepts scores at least 4, so the meter never calls it weak |
| `AuthCallback.HandleCallback` | app/auth/callback/route.ts:16-50 | at most one call is made; the code is exchanged exactly when a code is present without a token hash; the token is verified exactly when a token hash and a type are present; the redirect is origin plus `next` exactly when the attempted call succeeded, else the login page with the error query |
| `AuthCallback.CodeIgnoredWithTokenHash` | app/auth/callback/route.ts:26 | with both a code and a token hash the code is never exchanged |
| `AuthCallback.ExchangeSuccessRedirects` | app/auth/callback/route.ts:21-31 | a lone code that exchanges successfully redirects to origin plus `next`, which is `/notes` when absent; an empty `next` is kept |
| `AuthCallback.VerifySuccessRedirects` | app/auth/callback/route.ts:35-44 | a successful token check redirects to origin plus `next` |
| `AuthCallback.FailuresGoToLogin` | app/auth/callback/route.ts:26-49 | when neither call succeeds, including when neither is attempted, the redirect is the login page with the error query |

## Left out

- Calls into the hosted service are parameters, not modelled behaviour. These are the note update and insert, `getUser`, `exchangeCodeForSession` and `verifyOtp`. Each appears as a success or error outcome, or as an optional user id. A failing `getUser` call is not modelled.
- Asynchrony is not modelled: every event is atomic. So are overlapping saves, a `saveNow` racing a just-fired timer, and React's effect scheduling. As a result `isSaving` is true only inside an event and false between events. React applies state updates on the next render; the model applies them at once.
- Time is not modelled. The timer delay (2000) is not represented, and firing is an event. `new Date()` is a number supplied by the event.
- The `onSaveRef` refresh (hooks/useAutoSave.ts:17-19) is not modelled. `createClient()` runs on every render and `handleAutoSave` depends on its result, but every copy of `handleAutoSave` does the same thing for the same note id, so refreshing the reference does not change what `onSave` does.
- `JSON.stringify` equality is modelled as structural equality of the data.
- Lower-casing covers ASCII letters only. The white-space set for `trim` and `\s` is JavaScript's fixed set. String lengths count Unicode scalar values, not UTF-16 code units.
- Toasts, `router.push`/`refresh`, `console.error` and all markup are left out. So are the page components, delete and logout buttons, the sign-up form wiring and the verify-email route, which repeats the callback's token branch.
- The markup's `maxLength={200}` on the title inputs and `disabled={loading || !isValid}` on the submit buttons are not modelled. With them, typing cannot produce a title over 200 characters, and a draft that is not valid, a stored long title included, keeps the submit button disabled, so the invalid branch of either `Submit` cannot be reached through the form's controls and the message `Notes.LongTitleReportedAsShortContent` describes is never shown. A stored title longer than 200 characters reaches only the long-title half of `EditForm.GateVersusIsValid`, through auto-save: the gate passes and the store receives the long title. The model states what the handlers do for every input.

=== FILE: auth_callback.dfy ===
/**
 * The sign-in callback route. It decides which verification to attempt
 * (an OAuth code exchange or a one-time e-mail token check) and where to
 * redirect. The two calls to the identity service are external; their
 * results are parameters.
 */
module AuthCallback {
  import opened Wrappers

  const DefaultNext := "/notes"
  const FailurePath := "/login?error=Authentication failed. Please try again."

  /** The query parameters the route reads; an absent parameter is `None`. */
  datatype Query = Query(code: Option<string>, tokenHash: Option<string>, otpType: Option<string>, next: Option<string>)

  /** A call made to the identity service. */
  datatype AuthCall = ExchangeCode(code: string) | VerifyOtp(tokenHash: string, otpType: string)

  /** The calls made, in order, and the redirect target. */
  datatype Response = Response(calls: seq<AuthCall>, redirect: string)

  /** JavaScript truthiness of a query parameter: present and not empty. */
  predicate Truthy(p: Option<string>)
  {
    p.Some? && p.value != ""
  }

  /** `next ?? '/notes'`: only an absent parameter takes the default. */
  function NextPath(q: Query): string
  {
    match q.next
    case None => DefaultNext
    case Some(p) => p
  }

  /**
   * `GET`: a code without a token hash is exchanged; a token hash with a
   * type is verified; the request succeeds when the one attempted call
   * succeeds, and every other path redirects to the login page with an error.
   */
  function HandleCallback(origin: string, q: Query, exchangeOk: bool, verifyOk: bool): (r: Response)
    ensures |r.calls| <= 1
    ensures (exists c :: c in r.calls && c.ExchangeCode?) <==> Truthy(q.code) && !Truthy(q.tokenHash)
    ensures (exists c :: c in r.calls && c.VerifyOtp?) <==> Truthy(q.tokenHash) && Truthy(q.otpType)
    ensures r.calls != [] && r.calls[0].ExchangeCode? ==> q.code == Some(r.calls[0].code)
    ensures r.calls != [] && r.calls[0].VerifyOtp? ==>
      q.tokenHash == Some(r.calls[0].tokenHash) && q.otpType == Some(r.calls[0].otpType)
    ensures r.redirect == origin +
      (if (r.calls != [] && r.calls[0].ExchangeCode? && exchangeOk) || (r.calls != [] && r.calls[0].VerifyOtp? && verifyOk)
       then NextPath(q) else FailurePath)
  {
    if Truthy(q.code) && !Truthy(q.tokenHash) then
      var calls := [ExchangeCode(q.code.value)];
      assert calls[0] in calls;
      Response(calls, origin + if exchangeOk then NextPath(q) else FailurePath)
    else if Truthy(q.tokenHash) && Truthy(q.otpType) then
      var calls := [VerifyOtp(q.tokenHash.value, q.otpType.value)];
      assert calls[0] in calls;
      Response(calls, origin + if verifyOk then NextPath(q) else FailurePath)
    else
      Response([], origin + FailurePath)
  }

  /** With both a code and a token hash, the code is never exchanged. */
  lemma CodeIgnoredWithTokenHash(origin: string, q: Query, exchangeOk: bool, verifyOk: bool)
    requires Truthy(q.code) && Truthy(q.tokenHash)
    ensures forall c :: c in HandleCallback(origin, q, exchangeOk, verifyOk).calls ==> c.VerifyOtp?
  {
  }

  /** A successful exchange of a lone code sends the user on to `next`, or to `/notes` when it is absent. */
  lemma ExchangeSuccessRedirects(origin: string, q: Query, verifyOk: bool)
    requires Truthy(q.code) && !Truthy(q.tokenHash)
    ensures HandleCallback(origin, q, true, verifyOk) == Response([ExchangeCode(q.code.value)], origin + NextPath(q))
    ensures q.next.None? ==> HandleCallback(origin, q, true, verifyOk).redirect == origin + "/notes"
    ensures q.next == Some("") ==> HandleCallback(origin, q, true, verifyOk).redirect == origin
  {
  }

  /** A successful token check sends the user on to `next`, whatever the code parameter holds. */
  lemma VerifySuccessRedirects(origin: string, q: Query, exchangeOk: bool)
    requires Truthy(q.tokenHash) && Truthy(q.otpType)
    ensures HandleCallback(origin, q, exchangeOk, true) ==
      Response([VerifyOtp(q.tokenHash.value, q.otpType.value)], origin + NextPath(q))
  {
  }

  /** Missing parameters, or a failed exchange or check, end on the login page with the error query. */
  lemma FailuresGoToLogin(origin: string, q: Query, exchangeOk: bool, verifyOk: bool)
    requires !exchangeOk && !verifyOk
    ensures HandleCallback(origin, q, exchangeOk, verifyOk).redirect == origin + FailurePath
  {
  }
}

=== FILE: autosave.dfy ===
/**
 * The debounced auto-save hook. It remembers the last data it knows to be
 * saved (the baseline), keeps at most one pending timer, and exposes the
 * flags `isSaving`, `hasUnsavedChanges` and `lastSaved` plus a `saveNow`
 * escape hatch. Each event is atomic: a data change (one run of the change
 * effect, with the cleanup of the previous run), the timer firing, a
 * `saveNow` call, and the unmount cleanup. The injected `onSave` becomes the
 * outcome the event carries, and time is a number supplied by the event.
 */
module AutoSave {
  import opened Wrappers

  /** How the awaited `onSave` settled. */
  datatype SaveOutcome = Succeeded | Failed(error: string)

  /**
   * The hook's state: the data of the latest render, the baseline
   * (`previousDataRef`), the pending timer (`timeoutRef`) with the data it
   * captured, and the three state flags.
   */
  datatype HookState<T> = HookState(
    data: T,
    baseline: T,
    pending: Option<T>,
    isSaving: bool,
    hasUnsavedChanges: bool,
    lastSaved: Option<nat>)

  function Initial<T>(data: T): HookState<T>
  {
    HookState(data, data, None, false, false, None)
  }

  /**
   * What holds between events: no save is in flight, a pending timer always
   * carries the current data and that data differs from the baseline, and
   * when nothing is reported unsaved the current data is the baseline.
   */
  ghost predicate Inv<T>(s: HookState<T>)
  {
    && !s.isSaving
    && (s.pending.Some? ==> s.pending.value == s.data && s.data != s.baseline && s.hasUnsavedChanges)
    && (!s.hasUnsavedChanges ==> s.data == s.baseline)
  }

  /**
   * A render with new data. Equal data leaves the effect alone. Otherwise the
   * previous effect's cleanup clears the timer, and a new one is scheduled
   * only when the data differs from the baseline.
   */
  function Changed<T(==)>(s: HookState<T>, d: T): HookState<T>
  {
    if d == s.data then s
    else if d == s.baseline then s.(data := d, pending := None)
    else s.(data := d, pending := Some(d), hasUnsavedChanges := true)
  }

  /** The state a successful save of `d` at time `now` leaves. */
  function Acknowledged<T>(s: HookState<T>, d: T, now: nat): HookState<T>
  {
    s.(pending := None, baseline := d, hasUnsavedChanges := false, lastSaved := Some(now), isSaving := false)
  }

  /** The pending timer fires: its data is saved; a failure is swallowed and not retried. */
  function Fired<T>(s: HookState<T>, now: nat, outcome: SaveOutcome): HookState<T>
  {
    match s.pending
    case None => s
    case Some(d) => if outcome.Succeeded? then Acknowledged(s, d, now) else s.(pending := None, isSaving := false)
  }

  /** `saveNow`: the timer is cleared first, then the current data is saved. */
  function SavedNow<T>(s: HookState<T>, now: nat, outcome: SaveOutcome): HookState<T>
  {
    if outcome.Succeeded? then Acknowledged(s, s.data, now) else s.(pending := None, isSaving := false)
  }

  /** The unmount cleanup clears the pending timer. */
  function Unmounted<T>(s: HookState<T>): HookState<T>
  {
    s.(pending := None)
  }

  // ----- traces of events -----

  datatype Event<T> =
    | DataChanged(data: T)
    | TimerFires(now: nat, outcome: SaveOutcome)
    | SaveNow(now: nat, outcome: SaveOutcome)
    | Unmount

  function Step<T(==)>(s: HookState<T>, e: Event<T>): HookState<T>
  {
    match e
    case DataChanged(d) => Changed(s, d)
    case TimerFires(now, outcome) => Fired(s, now, outcome)
    case SaveNow(now, outcome) => SavedNow(s, now, outcome)
    case Unmount => Unmounted(s)
  }

  /** The data handed to `onSave` by one event. */
  function StepCalls<T>(s: HookState<T>, e: Event<T>): seq<T>
  {
    match e
    case TimerFires(_, _) => if s.pending.Some? then [s.pending.value] else []
    case SaveNow(_, _) => [s.data]
    case _ => []
  }

  function Run<T(==)>(s: HookState<T>, es: seq<Event<T>>): HookState<T>
    decreases es
  {
    if es == [] then s else Run(Step(s, es[0]), es[1..])
  }

  /** Every `onSave` call a sequence of events makes, in order. */
  function Calls<T(==)>(s: HookState<T>, es: seq<Event<T>>): seq<T>
    decreases es
  {
    if es == [] then [] else StepCalls(s, es[0]) + Calls(Step(s, es[0]), es[1..])
  }

  function Changes<T>(ds: seq<T>): (es: seq<Event<T>>)
    ensures |es| == |ds|
    ensures forall i :: 0 <= i < |ds| ==> es[i] == DataChanged(ds[i])
  {
    if ds == [] then [] else [DataChanged(ds[0])] + Changes(ds[1..])
  }

  function IsSaveEvent<T>(e: Event<T>): bool
  {
    e.TimerFires? || e.SaveNow?
  }

  function CountSaveEvents<T>(es: seq<Event<T>>): nat
  {
    if es == [] then 0 else (if IsSaveEvent(es[0]) then 1 else 0) + CountSaveEvents(es[1..])
  }

  // ----- properties -----

  lemma InitialInv<T>(d: T)
    ensures Inv(Initial(d))
    ensures var s := Initial(d); !s.isSaving && !s.hasUnsavedChanges && s.lastSaved == None
                                 && s.baseline == d && s.pending == None
  {
  }

  lemma StepInv<T>(s: HookState<T>, e: Event<T>)
    requires Inv(s)
    ensures Inv(Step(s, e))
    ensures |StepCalls(s, e)| <= (if IsSaveEvent(e) then 1 else 0)
  {
  }

  /** Every reachable state keeps the invariant; each timer or `saveNow` event makes at most one `onSave` call, the others none. */
  lemma {:induction false} RunInv<T>(s: HookState<T>, es: seq<Event<T>>)
    requires Inv(s)
    ensures Inv(Run(s, es))
    ensures |Calls(s, es)| <= CountSaveEvents(es)
    decreases es
  {
    if es != [] {
      StepInv(s, es[0]);
      RunInv(Step(s, es[0]), es[1..]);
    }
  }

  /**
   * A burst of changes that starts with a real edit leaves the current data
   * at the last value, makes no `onSave` call, and leaves a timer pending
   * exactly when that value differs from the baseline.
   */
  lemma {:induction false} BurstOfChanges<T>(s: HookState<T>, ds: seq<T>)
    requires Inv(s) && ds != [] && ds[0] != s.data
    ensures var t := Run(s, Changes(ds));
      && t.data == ds[|ds| - 1]
      && t.baseline == s.baseline
      && t.pending == (if ds[|ds| - 1] == s.baseline then None else Some(ds[|ds| - 1]))
      && t.lastSaved == s.lastSaved
    ensures Calls(s, Changes(ds)) == []
    decreases |ds|
  {
    var s1 := Step(s, DataChanged(ds[0]));
    assert Changes(ds)[1..] == Changes(ds[1..]);
    if |ds| > 1 {
      if ds[1] == s1.data {
        BurstNoOp(s1, ds[1..]);
      } else {
        BurstOfChanges(s1, ds[1..]);
      }
    }
  }

  /** A burst whose first value is the current data. */
  lemma {:induction false} BurstNoOp<T>(s: HookState<T>, ds: seq<T>)
    requires Inv(s) && ds != [] && ds[0] == s.data
    requires s.pending == (if s.data == s.baseline then None else Some(s.data))
    ensures var t := Run(s, Changes(ds));
      && t.data == ds[|ds| - 1]
      && t.baseline == s.baseline
      && t.pending == (if ds[|ds| - 1] == s.baseline then None else Some(ds[|ds| - 1]))
      && t.lastSaved == s.lastSaved
    ensures Calls(s, Changes(ds)) == []
    decreases |ds|
  {
    assert Step(s, DataChanged(ds[0])) == s;
    assert Changes(ds)[1..] == Changes(ds[1..]);
    if |ds| > 1 {
      if ds[1] == s.data {
        BurstNoOp(s, ds[1..]);
      } else {
        BurstOfChanges(s, ds[1..]);
      }
    }
  }

  /** Debounce: changes followed by the timer make exactly one `onSave` call, with the last data. */
  lemma Debounce<T>(s: HookState<T>, ds: seq<T>, now: nat, outcome: SaveOutcome)
    requires Inv(s) && ds != [] && ds[0] != s.data && ds[|ds| - 1] != s.baseline
    ensures Calls(s, Changes(ds) + [TimerFires(now, outcome)]) == [ds[|ds| - 1]]
  {
    BurstOfChanges(s, ds);
    CallsAppend(s, Changes(ds), TimerFires(now, outcome));
  }

  lemma {:induction false} CallsAppend<T>(s: HookState<T>, es: seq<Event<T>>, e: Event<T>)
    ensures Run(s, es + [e]) == Step(Run(s, es), e)
    ensures Calls(s, es + [e]) == Calls(s, es) + StepCalls(Run(s, es), e)
    decreases es
  {
    if es != [] {
      assert (es + [e])[0] == es[0] && (es + [e])[1..] == es[1..] + [e];
      CallsAppend(Step(s, es[0]), es[1..], e);
    }
  }

  /** A change back to the baseline cancels the timer and leaves the dirty flag as it was. */
  lemma ChangeToBaseline<T>(s: HookState<T>)
    requires Inv(s) && s.data != s.baseline
    ensures var t := Changed(s, s.baseline);
      t.pending == None && t.hasUnsavedChanges == s.hasUnsavedChanges && t.data == t.baseline
  {
  }

  /** A failed timer save changes nothing but the timer, and no later timer save happens without a new change. */
  lemma FailedSaveNotRetried<T>(s: HookState<T>, now: nat, error: string, later: nat, outcome: SaveOutcome)
    requires Inv(s) && s.pending.Some?
    ensures var t := Fired(s, now, Failed(error));
      && t == s.(pending := None)
      && StepCalls(t, TimerFires(later, outcome)) == []
      && Fired(t, later, outcome) == t
  {
  }

  /** `saveNow` leaves no timer pending, so no duplicate save of the same data follows. */
  lemma SaveNowCancelsTimer<T>(s: HookState<T>, now: nat, outcome: SaveOutcome, later: nat, outcome2: SaveOutcome)
    requires Inv(s)
    ensures var t := SavedNow(s, now, outcome);
      && t.pending == None
      && Calls(s, [SaveNow(now, outcome), TimerFires(later, outcome2)]) == [s.data]
  {
    var t := SavedNow(s, now, outcome);
    var tick: Event<T> := TimerFires(later, outcome2);
    var es: seq<Event<T>> := [SaveNow(now, outcome), tick];
    assert es[1..] == [tick];
    assert Calls(t, [tick]) == StepCalls(t, tick) + Calls(Step(t, tick), []);
    assert Calls(s, es) == [s.data] + Calls(t, [tick]);
  }

  /** A successful `saveNow` leaves the same state as a successful timer save of the same data. */
  lemma SaveNowLikeTimer<T>(s: HookState<T>, now: nat)
    requires Inv(s) && s.pending.Some?
    ensures SavedNow(s, now, Succeeded) == Fired(s, now, Succeeded)
  {
  }

  // ----- the hook as an object -----

  class AutoSaveHook<T(==)> {
    var data: T
    var baseline: T
    var pending: Option<T>
    var isSaving: bool
    var hasUnsavedChanges: bool
    var lastSaved: Option<nat>

    function State(): HookState<T>
      reads this
    {
      HookState(data, baseline, pending, isSaving, hasUnsavedChanges, lastSaved)
    }

    ghost predicate Valid()
      reads this
    {
      Inv(State())
    }

    /** The first render: nothing saved, nothing pending, the baseline is the initial data. */
    constructor(initial: T)
      ensures Valid() && State() == Initial(initial)
      ensures !isSaving && !hasUnsavedChanges && lastSaved == None && baseline == initial && pending == None
    {
      data := initial;
      baseline := initial;
      pending := None;
      isSaving := false;
      hasUnsavedChanges := false;
      lastSaved := None;
    }

    /** A render with data `d`: the change effect and the cleanup of its previous run. */
    method OnDataChanged(d: T)
      requires Valid()
      modifies this
      ensures Valid() && State() == Changed(old(State()), d)
      ensures d != old(data) && d == baseline ==> pending == None && hasUnsavedChanges == old(hasUnsavedChanges)
      ensures d != old(data) && d != baseline ==> pending == Some(d) && hasUnsavedChanges
      ensures baseline == old(baseline) && lastSaved == old(lastSaved)
    {
      if d == data {
        return;
      }
      data := d;
      pending := None;
      if d == baseline {
        return;
      }
      hasUnsavedChanges := true;
      pending := Some(d);
    }

    /** The pending timer fires; `saved` is the data handed to `onSave`, if a timer was pending. */
    method OnTimerFires(now: nat, outcome: SaveOutcome) returns (saved: Option<T>)
      requires Valid()
      modifies this
      ensures Valid() && State() == Fired(old(State()), now, outcome)
      ensures saved == old(pending) && pending == None && !isSaving
      ensures saved.Some? && outcome.Succeeded? ==>
        lastSaved == Some(now) && !hasUnsavedChanges && baseline == saved.value
      ensures saved.None? || outcome.Failed? ==>
        baseline == old(baseline) && hasUnsavedChanges == old(hasUnsavedChanges) && lastSaved == old(lastSaved)
    {
      saved := pending;
      if pending.None? {
        return;
      }
      var d := pending.value;
      pending := None;
      isSaving := true;
      if outcome.Succeeded? {
        lastSaved := Some(now);
        hasUnsavedChanges := false;
        baseline := d;
      }
      isSaving := false;
    }

    /** `saveNow`: clears the timer, saves the current data, and rethrows a failure as `thrown`. */
    method SaveNow(now: nat, outcome: SaveOutcome) returns (thrown: Option<string>)
      requires Valid()
      modifies this
      ensures Valid() && State() == SavedNow(old(State()), now, outcome)
      ensures pending == None && !isSaving && data == old(data)
      ensures thrown == (if outcome.Failed? then Some(outcome.error) else None)
      ensures outcome.Succeeded? ==> lastSaved == Some(now) && !hasUnsavedChanges && baseline == data
      ensures outcome.Failed? ==>
        baseline == old(baseline) && hasUnsavedChanges == old(hasUnsavedChanges) && lastSaved == old(lastSaved)
    {
      pending := None;
      isSaving := true;
      thrown := None;
      match outcome {
        case Succeeded =>
          lastSaved := Some(now);
          hasUnsavedChanges := false;
          baseline := data;
        case Failed(e) =>
          thrown := Some(e);
      }
      isSaving := false;
    }

    /** The unmount cleanup. */
    method Unmount()
      requires Valid()
      modifies this
      ensures Valid() && State() == Unmounted(old(State()))
      ensures pending == None
    {
      pending := None;
    }
  }
}

=== FILE: edit_form.dfy ===
/**
 * The edit-note form: its auto-save gate (the `onSave` handed to the
 * auto-save hook), and its submit handler, which forces a save through the
 * hook's `saveNow`. The store's update call is external; its result is a
 * parameter (an error message, or none).
 */
module EditForm {
  import opened Wrappers
  import opened Text
  import opened Notes
  import opened AutoSave

  const UpdateFailed := "Failed to update note"

  /** The update sent to the store: new title and content for one note id. */
  datatype NoteUpdate = NoteUpdate(id: string, title: string, content: string)

  /** What one call of `handleAutoSave` does: the update it sends, if any, and how it settles. */
  datatype GateCall = GateCall(update: Option<NoteUpdate>, outcome: SaveOutcome)

  /** The gate of `handleAutoSave`: both trimmed fields non-empty and long enough; no maximum. */
  predicate PassesAutoSaveGate(d: Draft)
  {
    var title, content := Trim(d.title), Trim(d.content);
    && title != [] && content != []
    && |title| >= MinTitleLength && |content| >= MinContentLength
  }

  /**
   * `handleAutoSave`: a draft that fails the gate resolves without touching
   * the store; otherwise the trimmed fields of note `noteId` are sent, and a
   * store error is thrown.
   */
  function HandleAutoSave(noteId: string, d: Draft, storeError: Option<string>): (r: GateCall)
    ensures r.update.Some? <==> PassesAutoSaveGate(d)
    ensures r.update.Some? ==> r.update.value == NoteUpdate(noteId, Trim(d.title), Trim(d.content))
    ensures r.outcome.Failed? <==> PassesAutoSaveGate(d) && storeError.Some?
    ensures r.outcome.Failed? ==> r.outcome.error == storeError.value
  {
    if !PassesAutoSaveGate(d) then GateCall(None, Succeeded)
    else
      var update := NoteUpdate(noteId, Trim(d.title), Trim(d.content));
      match storeError
      case None => GateCall(Some(update), Succeeded)
      case Some(e) => GateCall(Some(update), Failed(e))
  }

  /** The gate admits every valid draft, and in addition exactly those whose only defect is a title over the maximum. */
  lemma GateVersusIsValid(d: Draft)
    ensures IsValid(d) ==> PassesAutoSaveGate(d)
    ensures PassesAutoSaveGate(d) && !IsValid(d) <==>
      |Trim(d.title)| > MaxTitleLength && |Trim(d.content)| >= MinContentLength
  {
  }

  /**
   * A pending draft that fails the gate is recorded by the hook as saved:
   * nothing reaches the store, yet the dirty flag clears, the baseline
   * becomes the draft and the save time is recorded.
   */
  lemma RejectedDraftRecordedAsSaved(s: HookState<Draft>, noteId: string, now: nat, storeError: Option<string>)
    requires Inv(s) && s.pending.Some? && !PassesAutoSaveGate(s.pending.value)
    ensures var call := HandleAutoSave(noteId, s.pending.value, storeError);
      && call.update == None
      && var t := Fired(s, now, call.outcome);
      && !t.hasUnsavedChanges && t.baseline == s.data && t.lastSaved == Some(now) && t.pending == None
  {
  }

  /** On submit the draft is valid, so `saveNow`'s call of `handleAutoSave` always reaches the store. */
  function SubmitCall(noteId: string, d: Draft, storeError: Option<string>): (r: GateCall)
    requires IsValid(d)
    ensures r == HandleAutoSave(noteId, d, storeError)
    ensures r.update == Some(NoteUpdate(noteId, Trim(d.title), Trim(d.content)))
    ensures r.outcome == if storeError.Some? then Failed(storeError.value) else Succeeded
  {
    GateVersusIsValid(d);
    HandleAutoSave(noteId, d, storeError)
  }

  /** The edit form's component state, with its auto-save hook. */
  class EditNoteForm {
    const note: Note
    var title: string
    var content: string
    var loading: bool
    var error: Option<string>
    const autoSave: AutoSaveHook<Draft>

    ghost predicate Valid()
      reads this, autoSave
    {
      autoSave.Valid() && autoSave.data == Draft(title, content)
    }

    /** The fields start at the note's stored values, and so does the hook's baseline. */
    constructor(note: Note)
      ensures Valid() && fresh(autoSave)
      ensures this.note == note && title == note.title && content == note.content
      ensures !loading && error == None
      ensures autoSave.State() == Initial(Draft(note.title, note.content))
    {
      this.note := note;
      title := note.title;
      content := note.content;
      loading := false;
      error := None;
      autoSave := new AutoSaveHook(Draft(note.title, note.content));
    }

    /** Typing in the title field. */
    method SetTitle(t: string)
      requires Valid()
      modifies this, autoSave
      ensures Valid() && title == t && content == old(content)
      ensures loading == old(loading) && error == old(error)
      ensures autoSave.State() == Changed(old(autoSave.State()), Draft(t, old(content)))
    {
      title := t;
      autoSave.OnDataChanged(Draft(title, content));
    }

    /** Typing in the content field. */
    method SetContent(c: string)
      requires Valid()
      modifies this, autoSave
      ensures Valid() && content == c && title == old(title)
      ensures loading == old(loading) && error == old(error)
      ensures autoSave.State() == Changed(old(autoSave.State()), Draft(old(title), c))
    {
      content := c;
      autoSave.OnDataChanged(Draft(title, content));
    }

    /** The auto-save timer fires: the hook calls `handleAutoSave` on the draft it captured. */
    method AutoSaveTimerFires(now: nat, storeError: Option<string>) returns (update: Option<NoteUpdate>)
      requires Valid()
      modifies autoSave
      ensures Valid()
      ensures old(autoSave.pending).None? ==> update == None && autoSave.State() == old(autoSave.State())
      ensures old(autoSave.pending).Some? ==>
        var call := HandleAutoSave(note.id, old(autoSave.pending).value, storeError);
        update == call.update && autoSave.State() == Fired(old(autoSave.State()), now, call.outcome)
    {
      update := None;
      var outcome := Succeeded;
      if autoSave.pending.Some? {
        var call := HandleAutoSave(note.id, autoSave.pending.value, storeError);
        update, outcome := call.update, call.outcome;
      }
      var saved := autoSave.OnTimerFires(now, outcome);
    }

    /**
     * `handleSubmit`: an invalid draft gets its message and no save; a valid
     * one is saved through `saveNow`, whose rethrown error becomes the
     * message. After a save attempt `loading` is false, whether it succeeded or failed.
     */
    method Submit(now: nat, storeError: Option<string>) returns (update: Option<NoteUpdate>)
      requires Valid()
      modifies this, autoSave
      ensures Valid() && title == old(title) && content == old(content)
      ensures !IsValid(Draft(title, content)) ==>
        && loading == old(loading) && update == None && error == DraftError(Draft(title, content))
        && autoSave.State() == old(autoSave.State())
      ensures IsValid(Draft(title, content)) ==>
        && !loading
        && update == Some(NoteUpdate(note.id, Trim(title), Trim(content)))
        && error == (if storeError.Some? then Some(ErrorText(storeError.value, UpdateFailed)) else None)
        && autoSave.State() == SavedNow(old(autoSave.State()), now,
                                        if storeError.Some? then Failed(storeError.value) else Succeeded)
    {
      error := None;
      var draft := Draft(title, content);
      if !IsValid(draft) {
        error := DraftError(draft);
        assert draft == Draft(title, content);
        update := None;
      } else {
        loading := true;
        var call := SubmitCall(note.id, draft, storeError);
        update := call.update;
        var thrown := autoSave.SaveNow(now, call.outcome);
        if thrown.Some? {
          error := Some(ErrorText(thrown.value, UpdateFailed));
        }
        loading := false;
      }
    }
  }
}

=== FILE: new_form.dfy ===
/**
 * The new-note form's submit handler. The signed-in user and the store's
 * insert result come from the hosted service and are parameters here.
 */
module NewForm {
  import opened Wrappers
  import opened Text
  import opened Notes

  const NotLoggedIn := "You must be logged in to create a note"
  const CreateFailed := "Failed to create note"

  /** The row sent to the store's insert. */
  datatype NoteInsert = NoteInsert(title: string, content: string, userId: string)

  class NewNoteForm {
    var title: string
    var content: string
    var loading: bool
    var error: Option<string>

    /** The form starts empty, idle and without an error. */
    constructor()
      ensures title == "" && content == "" && !loading && error == None
    {
      title := "";
      content := "";
      loading := false;
      error := None;
    }

    /** Typing in the title field; the draft's rules are checked only on submit. */
    method SetTitle(t: string)
      modifies this
      ensures title == t && content == old(content)
      ensures loading == old(loading) && error == old(error)
    {
      title := t;
    }

    /** Typing in the content field. */
    method SetContent(c: string)
      modifies this
      ensures content == c && title == old(title)
      ensures loading == old(loading) && error == old(error)
    {
      content := c;
    }

    /**
     * `handleSubmit`. An invalid draft gets its message and nothing else
     * happens. A valid one looks up the user (`user`); without one the
     * not-logged-in message is shown and nothing is inserted; otherwise the
     * trimmed fields are inserted for that user, and an insert error
     * (`insertError`) becomes the message. Once a valid draft was
     * submitted, `loading` ends false whether it succeeded or failed.
     */
    method Submit(user: Option<string>, insertError: Option<string>) returns (lookedUp: bool, insert: Option<NoteInsert>)
      modifies this
      ensures title == old(title) && content == old(content)
      ensures !IsValid(Draft(title, content)) ==>
        loading == old(loading) && !lookedUp && insert == None && error == DraftError(Draft(title, content))
      ensures IsValid(Draft(title, content)) ==> !loading
      ensures IsValid(Draft(title, content)) && user.None? ==>
        lookedUp && insert == None && error == Some(NotLoggedIn)
      ensures IsValid(Draft(title, content)) && user.Some? ==>
        && lookedUp
        && insert == Some(NoteInsert(Trim(title), Trim(content), user.value))
        && error == (if insertError.Some? then Some(ErrorText(insertError.value, CreateFailed)) else None)
    {
      error := None;
      lookedUp, insert := false, None;
      var draft := Draft(title, content);
      if !IsValid(draft) {
        error := DraftError(draft);
        assert draft == Draft(title, content);
      } else {
        loading := true;
        lookedUp := true;
        match user {
          case None =>
            error := Some(ErrorText(NotLoggedIn, CreateFailed));
          case Some(id) =>
            insert := Some(NoteInsert(Trim(title), Trim(content), id));
            if insertError.Some? {
              error := Some(ErrorText(insertError.value, CreateFailed));
            }
        }
        loading := false;
      }
    }
  }
}

=== FILE: notes.dfy ===
/**
 * Notes and note drafts, with the draft rules shared by the new-note and
 * edit-note forms: the validity test and the single error message chosen
 * for an invalid draft.
 */
module Notes {
  import opened Wrappers
  import opened Text

  /** `VALIDATION.MIN_TITLE_LENGTH`, `VALIDATION.MAX_TITLE_LENGTH`, `VALIDATION.MIN_CONTENT_LENGTH`. */
  const MinTitleLength := 3
  const MaxTitleLength := 200
  const MinContentLength := 10

  /** A stored note row; identifiers and the creation time are opaque strings. */
  datatype Note = Note(id: string, userId: string, title: string, content: string, createdAt: string)

  /** The field values held by a form while the user types. */
  datatype Draft = Draft(title: string, content: string)

  const TitleRequired := "Title is required"
  const TitleTooShort := "Title must be at least 3 characters long"
  const ContentRequired := "Content is required"
  const ContentTooShort := "Content must be at least 10 characters long"

  /** The forms' `isValid`, including its two redundant non-emptiness conjuncts. */
  predicate IsValid(d: Draft)
  {
    var title, content := Trim(d.title), Trim(d.content);
    && |title| >= MinTitleLength
    && |title| <= MaxTitleLength
    && |content| >= MinContentLength
    && |title| > 0
    && |content| > 0
  }

  /** The non-emptiness conjuncts are implied by the length floors. */
  lemma IsValidBounds(d: Draft)
    ensures IsValid(d) <==>
      MinTitleLength <= |Trim(d.title)| <= MaxTitleLength && |Trim(d.content)| >= MinContentLength
  {
  }

  /**
   * The message `handleSubmit` shows for an invalid draft: the first of
   * title required, title too short, content required, and otherwise
   * content too short; nothing for a valid draft.
   */
  function DraftError(d: Draft): (r: Option<string>)
    ensures r == None <==> IsValid(d)
    ensures r == Some(TitleRequired) <==> AllWhitespace(d.title)
    ensures r == Some(TitleTooShort) <==> 0 < |Trim(d.title)| < MinTitleLength
    ensures r == Some(ContentRequired) <==>
      |Trim(d.title)| >= MinTitleLength && AllWhitespace(d.content)
    ensures r == Some(ContentTooShort) <==>
      && |Trim(d.title)| >= MinTitleLength
      && !AllWhitespace(d.content)
      && (|Trim(d.content)| < MinContentLength || |Trim(d.title)| > MaxTitleLength)
  {
    var title, content := Trim(d.title), Trim(d.content);
    if IsValid(d) then None
    else if title == [] then Some(TitleRequired)
    else if |title| < MinTitleLength then Some(TitleTooShort)
    else if content == [] then Some(ContentRequired)
    else Some(ContentTooShort)
  }

  /** A caught error's `err.message || fallback`: an empty message gives way to the fallback. */
  function ErrorText(message: string, fallback: string): string
  {
    if message == [] then fallback else message
  }

  /**
   * A title longer than the maximum is the one defect without a message of
   * its own: when it is the only defect, the draft is reported as having
   * content that is too short.
   */
  lemma LongTitleReportedAsShortContent(d: Draft)
    requires |Trim(d.title)| > MaxTitleLength && |Trim(d.content)| >= MinContentLength
    ensures !IsValid(d)
    ensures DraftError(d) == Some(ContentTooShort)
  {
  }
}

=== FILE: notes_list.dfy ===
/**
 * The notes list's search box: a case-insensitive substring filter over the
 * user's notes.
 */
module NotesList {
  import opened Text
  import opened Notes

  /** A note matches when its lower-cased title or content contains the lower-cased query. */
  predicate Matches(n: Note, query: string)
  {
    Contains(Lower(n.title), Lower(query)) || Contains(Lower(n.content), Lower(query))
  }

  /** `a` is `b` with some elements left out and the rest in their original order. */
  ghost predicate IsSubsequence<T>(a: seq<T>, b: seq<T>)
    decreases |b|
  {
    if a == [] then true
    else if b == [] then false
    else (a[0] == b[0] && IsSubsequence(a[1..], b[1..])) || IsSubsequence(a, b[1..])
  }

  /** `notes.filter(...)`: keeps the matching notes, in order. */
  function KeepMatching(notes: seq<Note>, query: string): (r: seq<Note>)
    ensures |r| <= |notes|
    ensures IsSubsequence(r, notes)
    ensures forall n :: n in r <==> n in notes && Matches(n, query)
    ensures forall n :: multiset(r)[n] == if Matches(n, query) then multiset(notes)[n] else 0
  {
    if notes == [] then []
    else
      var rest := KeepMatching(notes[1..], query);
      assert notes == [notes[0]] + notes[1..];
      assert multiset(notes) == multiset{notes[0]} + multiset(notes[1..]);
      if Matches(notes[0], query) then [notes[0]] + rest
      else rest
  }

  /** `filteredNotes`: a blank query shows every note; otherwise the untrimmed query is matched. */
  function FilterNotes(notes: seq<Note>, query: string): (r: seq<Note>)
    ensures IsBlank(query) ==> r == notes
    ensures !IsBlank(query) ==> forall n :: n in r <==> n in notes && Matches(n, query)
    ensures !IsBlank(query) ==>
      forall n :: multiset(r)[n] == if Matches(n, query) then multiset(notes)[n] else 0
    ensures IsSubsequence(r, notes) && |r| <= |notes|
  {
    if IsBlank(query) then (SubsequenceRefl(notes); notes) else KeepMatching(notes, query)
  }

  lemma {:induction false} SubsequenceRefl<T>(s: seq<T>)
    ensures IsSubsequence(s, s)
    decreases |s|
  {
    if s != [] {
      SubsequenceRefl(s[1..]);
    }
  }

  /** Keeping the matches of a list whose every element matches changes nothing. */
  lemma {:induction false} KeepAllMatching(notes: seq<Note>, query: string)
    requires forall n :: n in notes ==> Matches(n, query)
    ensures KeepMatching(notes, query) == notes
    decreases |notes|
  {
    if notes != [] {
      assert notes[0] in notes;
      assert forall n :: n in notes[1..] ==> n in notes;
      KeepAllMatching(notes[1..], query);
    }
  }

  /** Searching the search results again with the same query gives the same results. */
  lemma FilterIdempotent(notes: seq<Note>, query: string)
    ensures FilterNotes(FilterNotes(notes, query), query) == FilterNotes(notes, query)
  {
    if !IsBlank(query) {
      KeepAllMatching(KeepMatching(notes, query), query);
    }
  }

  /**
   * Surrounding spaces in a non-blank query take part in the match: the
   * query " cat" drops a note titled "cat", although the trimmed query
   * "cat" occurs in it.
   */
  lemma UntrimmedQuery()
    ensures var n := Note("1", "u", "cat", "cat", "");
      && Contains(Lower(n.title), Lower(Trim(" cat")))
      && FilterNotes([n], " cat") == []
  {
    var n := Note("1", "u", "cat", "cat", "");
    assert Trim(" cat") == "cat" by {
      assert " cat"[1..] == "cat";
    }
    assert Lower("cat") == "cat";
    assert OccursAt(Lower(n.title), "cat", 0);
    assert !IsBlank(" cat");
    assert !Matches(n, " cat");
  }
}

=== FILE: text.dfy ===
/**
 * The string primitives the notes app relies on: `String.prototype.trim`,
 * `toLowerCase` and `includes`. Strings are sequences of characters.
 */
module Text {

  /** The white-space set shared by JavaScript's `trim` and the regular-expression class `\s`. */
  predicate IsWhitespace(c: char)
  {
    || c == ' ' || c == '\t' || c == '\n' || c == '\r' || c == '\U{000B}' || c == '\U{000C}'
    || c == '\U{00A0}' || c == '\U{1680}' || ('\U{2000}' <= c <= '\U{200A}')
    || c == '\U{2028}' || c == '\U{2029}' || c == '\U{202F}' || c == '\U{205F}'
    || c == '\U{3000}' || c == '\U{FEFF}'
  }

  predicate AllWhitespace(s: string)
  {
    forall i :: 0 <= i < |s| ==> IsWhitespace(s[i])
  }

  /** `trim`: white space is dropped from both ends, one character at a time. */
  function Trim(s: string): (r: string)
    ensures |r| <= |s|
    ensures r != [] ==> !IsWhitespace(r[0]) && !IsWhitespace(r[|r| - 1])
    ensures r == [] <==> AllWhitespace(s)
  {
    if s == [] then s
    else if IsWhitespace(s[0]) then
      assert AllWhitespace(s[1..]) ==> AllWhitespace(s) by {
        assert forall i :: 1 <= i < |s| ==> s[i] == s[1..][i - 1];
      }
      Trim(s[1..])
    else if IsWhitespace(s[|s| - 1]) then Trim(s[..|s| - 1])
    else s
  }

  lemma AllWhitespaceJoin(a: string, b: string)
    requires AllWhitespace(a) && AllWhitespace(b)
    ensures AllWhitespace(a + b)
  {
    assert forall i :: |a| <= i < |a| + |b| ==> (a + b)[i] == b[i - |a|];
  }

  lemma PrefixSlices(t: string, u: string, k: nat, n: nat)
    requires k + n <= |t|
    ensures (t + u)[k..k + n] == t[k..k + n]
    ensures (t + u)[..k] == t[..k]
    ensures (t + u)[k + n..] == t[k + n..] + u
  {
  }

  lemma ConsSlices(c: char, t: string, j: nat, n: nat)
    requires j + n <= |t|
    ensures ([c] + t)[j + 1..j + 1 + n] == t[j..j + n]
    ensures ([c] + t)[..j + 1] == [c] + t[..j]
    ensures ([c] + t)[j + 1 + n..] == t[j + n..]
  {
  }

  /** What `trim` keeps is a contiguous slice of the input, and everything it drops is white space. */
  lemma {:induction false} TrimSlice(s: string) returns (k: nat)
    ensures k + |Trim(s)| <= |s| && Trim(s) == s[k..k + |Trim(s)|]
    ensures AllWhitespace(s[..k]) && AllWhitespace(s[k + |Trim(s)|..])
    decreases |s|, 1
  {
    if s != [] && IsWhitespace(s[0]) {
      k := TrimSliceFront(s);
    } else if s != [] && IsWhitespace(s[|s| - 1]) {
      k := TrimSliceBack(s);
    } else {
      k := 0;
      assert s[..0] == [] && s[|Trim(s)|..] == [];
    }
  }

  lemma {:induction false} TrimSliceFront(s: string) returns (k: nat)
    requires s != [] && IsWhitespace(s[0])
    ensures k + |Trim(s)| <= |s| && Trim(s) == s[k..k + |Trim(s)|]
    ensures AllWhitespace(s[..k]) && AllWhitespace(s[k + |Trim(s)|..])
    decreases |s|, 0
  {
    var t := s[1..];
    assert s == [s[0]] + t;
    assert Trim(s) == Trim(t);
    var n := |Trim(t)|;
    var j := TrimSlice(t);
    k := j + 1;
    ConsSlices(s[0], t, j, n);
    AllWhitespaceJoin([s[0]], t[..j]);
  }

  lemma {:induction false} TrimSliceBack(s: string) returns (k: nat)
    requires s != [] && !IsWhitespace(s[0]) && IsWhitespace(s[|s| - 1])
    ensures k + |Trim(s)| <= |s| && Trim(s) == s[k..k + |Trim(s)|]
    ensures AllWhitespace(s[..k]) && AllWhitespace(s[k + |Trim(s)|..])
    decreases |s|, 0
  {
    var t := s[..|s| - 1];
    assert s == t + [s[|s| - 1]];
    assert Trim(s) == Trim(t);
    var n := |Trim(t)|;
    k := TrimSlice(t);
    PrefixSlices(t, [s[|s| - 1]], k, n);
    AllWhitespaceJoin(t[k + n..], [s[|s| - 1]]);
  }

  /** JavaScript's `!s.trim()`: the string is empty once trimmed. */
  predicate IsBlank(s: string)
  {
    Trim(s) == []
  }

  /** Lower-casing of one character (ASCII letters only; everything else is kept). */
  function LowerChar(c: char): (r: char)
  {
    if 'A' <= c <= 'Z' then (c as int + 32) as char else c
  }

  /** `toLowerCase`: no ASCII capital is left, and every other character is kept in place. */
  function Lower(s: string): (r: string)
    ensures |r| == |s|
    ensures forall i :: 0 <= i < |r| ==> !('A' <= r[i] <= 'Z')
    ensures forall i :: 0 <= i < |s| && !('A' <= s[i] <= 'Z') ==> r[i] == s[i]
  {
    seq(|s|, i requires 0 <= i < |s| => LowerChar(s[i]))
  }

  /** Lower-casing twice is lower-casing once. */
  lemma LowerIdempotent(s: string)
    ensures Lower(Lower(s)) == Lower(s)
  {
  }

  predicate IsLetter(c: char)
  {
    'a' <= c <= 'z' || 'A' <= c <= 'Z'
  }

  /** A letter's place in the alphabet, counted from 0 for both cases. */
  function AlphabetPos(c: char): int
  {
    if 'a' <= c <= 'z' then c as int - 'a' as int else c as int - 'A' as int
  }

  /** Two characters that differ at most in letter case. */
  predicate SameLetter(a: char, b: char)
  {
    a == b || (IsLetter(a) && IsLetter(b) && AlphabetPos(a) == AlphabetPos(b))
  }

  /** Two strings that differ at most in the case of their letters. */
  predicate SameIgnoringCase(a: string, b: string)
  {
    |a| == |b| && forall i :: 0 <= i < |a| ==> SameLetter(a[i], b[i])
  }

  lemma LowerCharSame(x: char, y: char)
    ensures LowerChar(x) == LowerChar(y) <==> SameLetter(x, y)
  {
    if 'A' <= x <= 'Z' && !IsLetter(y) {
      assert 'a' <= LowerChar(x) <= 'z';
    }
    if 'A' <= y <= 'Z' && !IsLetter(x) {
      assert 'a' <= LowerChar(y) <= 'z';
    }
  }

  /** Lower-casing makes exactly the strings that differ only in letter case equal. */
  lemma LowerIgnoresCase(a: string, b: string)
    ensures Lower(a) == Lower(b) <==> SameIgnoringCase(a, b)
  {
    if Lower(a) == Lower(b) {
      forall i | 0 <= i < |a|
        ensures SameLetter(a[i], b[i])
      {
        LowerCharSame(a[i], b[i]);
      }
    }
    if SameIgnoringCase(a, b) {
      forall i | 0 <= i < |a|
        ensures Lower(a)[i] == Lower(b)[i]
      {
        LowerCharSame(a[i], b[i]);
      }
    }
  }

  /** `needle` occurs in `hay` starting at offset `i`. */
  predicate OccursAt(hay: string, needle: string, i: int)
  {
    0 <= i && i + |needle| <= |hay| && hay[i..i + |needle|] == needle
  }

  /** `hay.includes(needle)`: `needle` occurs in `hay` at some offset. */
  predicate Contains(hay: string, needle: string)
  {
    exists i | 0 <= i <= |hay| - |needle| :: OccursAt(hay, needle, i)
  }
}

=== FILE: validation.dfy ===
/**
 * The credential validators of the sign-up and login forms: an e-mail
 * address checked against a fixed regular expression, a password checked
 * by an ordered chain of rules, and a password-strength meter.
 */
module Validation {
  import opened Text

  /** `VALIDATION.MIN_PASSWORD_LENGTH`. */
  const MinPasswordLength := 6

  /** `ValidationResult`: valid, or invalid with the single message shown to the user. */
  datatype Verdict = Valid | Invalid(error: string)

  const EmailRequired := "Email is required"
  const EmailMalformed := "Please enter a valid email address (e.g., user@example.com)"
  const PasswordRequired := "Password is required"
  const PasswordTooShort := "Password must be at least 6 characters long"
  const PasswordNoUpper := "Password must contain at least one uppercase letter"
  const PasswordNoLower := "Password must contain at least one lowercase letter"
  const PasswordNoDigit := "Password must contain at least one number"

  // ----- e-mail -----

  /** The character class `[^\s@]`. */
  predicate EmailChar(c: char)
  {
    !IsWhitespace(c) && c != '@'
  }

  predicate AllEmailChars(s: string)
  {
    forall i :: 0 <= i < |s| ==> EmailChar(s[i])
  }

  /**
   * The language of `^[^\s@]+@[^\s@]+\.[^\s@]{2,}$`: a local part, one `@`, a
   * domain, a dot and a top-level part of at least two characters, none of the
   * three containing white space or `@`.
   */
  ghost predicate EmailPattern(s: string)
  {
    exists local, domain, top :: EmailSplit(s, local, domain, top)
  }

  /** `s` is `local@domain.top` with the parts the regular expression demands. */
  ghost predicate EmailSplit(s: string, local: string, domain: string, top: string)
  {
    && s == local + "@" + domain + "." + top
    && local != [] && domain != [] && |top| >= 2
    && AllEmailChars(local) && AllEmailChars(domain) && AllEmailChars(top)
  }

  /** `h[m]` is a dot with at least one character before it and two after it. */
  predicate DotAt(h: string, m: int)
  {
    1 <= m && m + 3 <= |h| && h[m] == '.'
  }

  /** The part after the `@`: free of white space and `@`, with a dot that has a character before it and two after it. */
  predicate EmailHost(h: string)
  {
    AllEmailChars(h) && exists m | 0 <= m < |h| :: DotAt(h, m)
  }

  /** `s[k]` is an `@` preceded by a non-empty local part and followed by a host. */
  predicate AtSplit(s: string, k: int)
  {
    0 < k < |s| && s[k] == '@' && AllEmailChars(s[..k]) && EmailHost(s[k + 1..])
  }

  /** The executable matcher: some `@` splits `s` into a non-empty local part and a host. */
  predicate MatchesEmail(s: string)
  {
    exists k | 0 <= k < |s| :: AtSplit(s, k)
  }

  lemma AllEmailCharsSlice(s: string, i: int, j: int)
    requires 0 <= i <= j <= |s| && AllEmailChars(s)
    ensures AllEmailChars(s[i..j])
  {
    assert forall k :: 0 <= k < j - i ==> s[i..j][k] == s[i + k];
  }

  lemma AllEmailCharsJoin(a: string, b: string)
    requires AllEmailChars(a) && AllEmailChars(b)
    ensures AllEmailChars(a + b)
  {
    assert forall k :: |a| <= k < |a| + |b| ==> (a + b)[k] == b[k - |a|];
  }

  lemma MatchesEmailToPattern(s: string)
    requires MatchesEmail(s)
    ensures EmailPattern(s)
  {
    var k :| 0 <= k < |s| && AtSplit(s, k);
    var h := s[k + 1..];
    var m :| 0 <= m < |h| && DotAt(h, m);
    var local, domain, top := s[..k], h[..m], h[m + 1..];
    AllEmailCharsSlice(h, 0, m);
    AllEmailCharsSlice(h, m + 1, |h|);
    assert h == domain + "." + top;
    assert s == local + "@" + domain + "." + top;
    assert EmailSplit(s, local, domain, top);
  }

  lemma PatternToMatchesEmail(s: string)
    requires EmailPattern(s)
    ensures MatchesEmail(s)
  {
    var local, domain, top :| EmailSplit(s, local, domain, top);
    var k := |local|;
    var h := domain + "." + top;
    assert s == local + "@" + h;
    assert s[k] == '@' && s[..k] == local && s[k + 1..] == h;
    assert DotAt(h, |domain|);
    AllEmailCharsJoin(domain, ".");
    AllEmailCharsJoin(domain + ".", top);
    assert EmailHost(h);
    assert AtSplit(s, k);
  }

  /** The executable matcher accepts exactly the language of the regular expression. */
  lemma MatchesEmailIffPattern(s: string)
    ensures MatchesEmail(s) <==> EmailPattern(s)
  {
    if MatchesEmail(s) {
      MatchesEmailToPattern(s);
    }
    if EmailPattern(s) {
      PatternToMatchesEmail(s);
    }
  }

  /** `validateEmail`: blank input is "required"; otherwise the untrimmed input must match the pattern. */
  function ValidateEmail(email: string): (r: Verdict)
    ensures r == Invalid(EmailRequired) <==> AllWhitespace(email)
    ensures r == Valid <==> EmailPattern(email)
    ensures r.Invalid? ==> r.error == EmailRequired || r.error == EmailMalformed
  {
    MatchesEmailIffPattern(email);
    if IsBlank(email) then Invalid(EmailRequired)
    else if !MatchesEmail(email) then Invalid(EmailMalformed)
    else Valid
  }

  lemma AtSplitChars(s: string, k: int)
    requires AtSplit(s, k)
    ensures forall i :: 0 <= i < |s| && i != k ==> EmailChar(s[i])
  {
    var h := s[k + 1..];
    forall i | 0 <= i < |s| && i != k ensures EmailChar(s[i]) {
      if i < k {
        assert s[i] == s[..k][i];
      } else {
        assert s[i] == h[i - k - 1];
      }
    }
  }

  lemma ValidEmailMatches(email: string)
    requires ValidateEmail(email) == Valid
    ensures MatchesEmail(email)
  {
  }

  lemma MatchingEmailShape(email: string)
    requires MatchesEmail(email)
    ensures forall i :: 0 <= i < |email| ==> !IsWhitespace(email[i])
    ensures exists k :: 0 <= k < |email| && email[k] == '@'
    ensures forall i, j :: 0 <= i < j < |email| && email[i] == '@' ==> email[j] != '@'
  {
    var k :| 0 <= k < |email| && AtSplit(email, k);
    AtSplitChars(email, k);
    assert email[k] == '@';
  }

  /** A valid address contains no white space and exactly one `@`. */
  lemma ValidEmailShape(email: string)
    requires ValidateEmail(email) == Valid
    ensures forall i :: 0 <= i < |email| ==> !IsWhitespace(email[i])
    ensures exists k :: 0 <= k < |email| && email[k] == '@'
    ensures forall i, j :: 0 <= i < j < |email| && email[i] == '@' ==> email[j] != '@'
  {
    ValidEmailMatches(email);
    MatchingEmailShape(email);
  }

  /** Matching uses the untrimmed input: a non-blank address with surrounding white space is rejected as malformed. */
  lemma SurroundingWhitespaceRejected(email: string)
    requires !AllWhitespace(email)
    requires IsWhitespace(email[0]) || IsWhitespace(email[|email| - 1])
    ensures ValidateEmail(email) == Invalid(EmailMalformed)
  {
    if ValidateEmail(email) == Valid {
      ValidEmailShape(email);
    }
  }

  // ----- password -----

  /** `/[A-Z]/.test(p)` */
  predicate HasUpper(p: string) { exists i :: 0 <= i < |p| && 'A' <= p[i] <= 'Z' }
  /** `/[a-z]/.test(p)` */
  predicate HasLower(p: string) { exists i :: 0 <= i < |p| && 'a' <= p[i] <= 'z' }
  /** `/[0-9]/.test(p)` */
  predicate HasDigit(p: string) { exists i :: 0 <= i < |p| && '0' <= p[i] <= '9' }
  /** `/[^A-Za-z0-9]/.test(p)` */
  predicate HasSymbol(p: string)
  {
    exists i :: 0 <= i < |p| && !('A' <= p[i] <= 'Z') && !('a' <= p[i] <= 'z') && !('0' <= p[i] <= '9')
  }

  /** `validatePassword`: the first failing rule, in the order required, length, upper, lower, digit. */
  function ValidatePassword(password: string): (r: Verdict)
    ensures r == Valid <==>
      |password| >= MinPasswordLength && HasUpper(password) && HasLower(password) && HasDigit(password)
    ensures r == Invalid(PasswordRequired) <==> password == []
    ensures r == Invalid(PasswordTooShort) <==> 0 < |password| < MinPasswordLength
    ensures r == Invalid(PasswordNoUpper) <==> |password| >= MinPasswordLength && !HasUpper(password)
    ensures r == Invalid(PasswordNoLower) <==>
      |password| >= MinPasswordLength && HasUpper(password) && !HasLower(password)
    ensures r == Invalid(PasswordNoDigit) <==>
      |password| >= MinPasswordLength && HasUpper(password) && HasLower(password) && !HasDigit(password)
  {
    if password == [] then Invalid(PasswordRequired)
    else if |password| < MinPasswordLength then Invalid(PasswordTooShort)
    else if !HasUpper(password) then Invalid(PasswordNoUpper)
    else if !HasLower(password) then Invalid(PasswordNoLower)
    else if !HasDigit(password) then Invalid(PasswordNoDigit)
    else Valid
  }

  // ----- strength meter -----

  datatype Strength = Weak | Medium | Strong

  function Indicator(b: bool): nat
  {
    if b then 1 else 0
  }

  /** The score: how many of six independent criteria hold. */
  function Score(p: string): (n: nat)
    ensures n <= 6
  {
    Indicator(|p| >= MinPasswordLength) + Indicator(|p| >= 8)
      + Indicator(HasUpper(p)) + Indicator(HasLower(p)) + Indicator(HasDigit(p)) + Indicator(HasSymbol(p))
  }

  function StrengthMessage(s: Strength): string
  {
    match s
    case Weak => "Weak password"
    case Medium => "Medium strength"
    case Strong => "Strong password"
  }

  /**
   * `getPasswordStrength`: an empty password is weak with no message;
   * otherwise a score of at most 2 is weak, 3 to 4 medium, 5 to 6 strong.
   */
  method PasswordStrength(password: string) returns (strength: Strength, message: string)
    ensures password == [] ==> strength == Weak && message == ""
    ensures password != [] ==>
      && (strength == Weak <==> Score(password) <= 2)
      && (strength == Strong <==> Score(password) >= 5)
      && message == StrengthMessage(strength)
  {
    if |password| == 0 {
      return Weak, "";
    }
    var score := 0;
    if |password| >= MinPasswordLength { score := score + 1; }
    if |password| >= 8 { score := score + 1; }
    if HasUpper(password) { score := score + 1; }
    if HasLower(password) { score := score + 1; }
    if HasDigit(password) { score := score + 1; }
    if HasSymbol(password) { score := score + 1; }
    assert score == Score(password);
    if score <= 2 {
      strength, message := Weak, "Weak password";
    } else if score <= 4 {
      strength, message := Medium, "Medium strength";
    } else {
      strength, message := Strong, "Strong password";
    }
  }

  /** A password the validator accepts meets at least four criteria, above the meter's weak threshold of 2. */
  lemma AcceptedPasswordNotWeak(password: string)
    requires ValidatePassword(password) == Valid
    ensures Score(password) >= 4
  {
  }
}

=== FILE: wrappers.dfy ===
/** The optional value used throughout the model for JavaScript's `null`/absent values. */
module Wrappers {
  datatype Option<+T> = None | Some(value: T)
}
